=== FILE: README.md ===
# timerfd: a Dafny model of a cross-platform timer shim

`unitree_sdk2py/utils/timerfd.py` offers a Linux-style `timerfd_create` /
`timerfd_settime` / `timerfd_gettime` interface on two platforms:

- on Windows it is built on a manual-reset waitable timer;
- on Linux it uses the real `timerfd` calls, with `timespec` / `itimerspec`
  encoders.

`test.py` is a separate Windows timer driver. It uses the documented
`SetWaitableTimer` units, a completion routine and alertable waits.

This project models the pure logic under that ctypes plumbing:

- the `TimerHandle` lifecycle;
- clock-id validation and create failure;
- the seconds-to-native unit conversions, including Python's `int()`
  truncation and ctypes' silent integer masking;
- the wait-result decoding;
- the `itimerspec` field roles;
- the resource safety of `timer_init` and `test`.

Native calls are not performed. Each call becomes a `Kernel32.Call` (or a
`LinuxTimerfd.LibcCall`) event in a returned trace. Whatever the kernel would
answer is a parameter of the operation:

- the handle value `CreateWaitableTimerW` returns (0 for NULL);
- the boolean `SetWaitableTimer` returns;
- the wait-result code for each wait.

Python floats are exact `real`s. `int(x)` is `Machine.Trunc`, which rounds
toward zero. Stores into fixed-width ctypes integers are
`ToInt32`/`ToUint32`/`ToInt64`, because ctypes masks and does no overflow
check. A 64-bit process is assumed: `HANDLE(-1)` is `2^64 - 1` and `c_long`
on Linux is 64 bits wide.

Modules:

- `Machine`: truncation and integer widths.
- `Results`: option, result and outcome shapes.
- `Kernel32`: native call events, errors, Win32 constants and the
  documented units.
- `WinTimerfd`: the Windows branch of `timerfd.py`.
- `LinuxTimerfd`: the Linux branch of `timerfd.py`.
- `ApcTimerTest`: `test.py`.
- `PlatformRoles`: the two `timerfd_settime` wrappers compared with each other and with `test.py`, including the wait decoding.

Where the code does something other than a timer facade would be expected
to do, the model follows the code:

- Arming a released handle passes `INVALID_HANDLE_VALUE` to the kernel. It
  does not raise a "handle closed" error.
- A negative delay is not rejected. On Windows it becomes a positive
  (absolute) due time; see the `DueTimeTicks` contracts.
- The Linux `timerfd_settime` wrapper does not inspect the native return
  code.
- A clock id other than 1 raises through `ctypes.WinError` with a string
  argument. That fails while formatting, so it surfaces as a `TypeError`,
  still before any native call. The model calls it `UnsupportedClock`.
- `close` tests the wrapper's value against the sentinel object by
  identity. A wrapper left behind by a failed create holds `None`, reads as
  live, and its finaliser calls `CloseHandle(NULL)`.

## Model

| member | source | states |
|---|---|---|
| WinTimerfd.Close | unitree_sdk2py/utils/timerfd.py:46-49 | closing a live wrapper releases its native value once and leaves the sentinel; closing the sentinel makes no native call |
| WinTimerfd.ReleasedExactlyOnce | unitree_sdk2py/utils/timerfd.py:46-52 | any non-empty sequence of `close()` and `__del__` calls releases a live handle exactly once, and a released one never |
| WinTimerfd.ReleasedStaysSilent | unitree_sdk2py/utils/timerfd.py:46-52 | once a wrapper holds the sentinel, further closes and finalisation make no native call |
| WinTimerfd.Create | unitree_sdk2py/utils/timerfd.py:54-61 | a clock id other than 1 raises with no native call; otherwise exactly one create call; succeeds iff the kernel returns non-NULL, and then wraps exactly that value |
| WinTimerfd.FailedCreateFinalizesNull | unitree_sdk2py/utils/timerfd.py:46-60 | after a NULL create, the abandoned wrapper reads as live, so its finaliser calls `CloseHandle(NULL)` |
| WinTimerfd.CreateThenCloseReleasesOnce | unitree_sdk2py/utils/timerfd.py:42-61 | a created then closed timer is released exactly once over the whole trace |
| WinTimerfd.DueTimeTicks | unitree_sdk2py/utils/timerfd.py:65 | for a non-negative interval the due time is relative (≤ 0) and counts the interval in 1/10000 s; a negative interval yields an absolute (≥ 0) due time |
| WinTimerfd.PeriodArgument | unitree_sdk2py/utils/timerfd.py:66 | the period is present iff positive, and is then the period in 1/10000 s rounded down |
| WinTimerfd.MarshalUlong | unitree_sdk2py/utils/timerfd.py:28 | the `ULONG` parameter refuses `None` with an argument error and masks an int to 32 bits |
| WinTimerfd.SetTimeWindow | unitree_sdk2py/utils/timerfd.py:63-68 | for a positive period: one `SetWaitableTimer` call on the wrapped value with the converted due time and period, raising iff the kernel fails; otherwise an argument error and no call |
| WinTimerfd.OneShotRejected | unitree_sdk2py/utils/timerfd.py:66-67 | a period ≤ 0 never reaches the kernel and raises an argument error |
| WinTimerfd.SetTimeWindowIntended | unitree_sdk2py/utils/timerfd.py:63-68 | the corrected arming: exactly one native call, raising iff the kernel fails; the period is passed as the signed `LONG` that `lPeriod` is; below 2^31 ms it is non-negative, and the delay and period asked for are the arguments in seconds to within 100 ns and 1 ms |
| WinTimerfd.SetTime | unitree_sdk2py/utils/timerfd.py:70-71 | the first argument becomes the due time and the second the period |
| WinTimerfd.GetTime | unitree_sdk2py/utils/timerfd.py:73-77 | read with integer comparisons: one non-alertable wait; raises iff the result is `WAIT_FAILED`; otherwise returns true iff the result is `WAIT_OBJECT_0` |
| WinTimerfd.GetTimeAsWritten | unitree_sdk2py/utils/timerfd.py:73-77 | Python's `==` between the int wait result and the module's `DWORD` instances falls back to identity, so whatever the kernel answers it never raises and always returns false |
| WinTimerfd.GetTimeWaitsForeverByDefault | unitree_sdk2py/utils/timerfd.py:73-74 | without a timeout argument the wait is `INFINITE` |
| WinTimerfd.GetTimeAsWrittenDiverges | unitree_sdk2py/utils/timerfd.py:19-20 | on `WAIT_OBJECT_0` and on `WAIT_FAILED` the as-written and the intended decoding give different answers |
| PlatformRoles.GetTimeAgreesWithClassify | unitree_sdk2py/utils/timerfd.py:73-77 | the Windows `timerfd_gettime` raises exactly on the code `test.py` decodes as a wait error and returns true exactly on the code it decodes as success |
| LinuxTimerfd.Modf | unitree_sdk2py/utils/timerfd.py:98 | the fractional and integral parts add up to the input, share its sign, and the integral part is its truncation |
| LinuxTimerfd.EncodeSeconds | unitree_sdk2py/utils/timerfd.py:96-100 | for secs ≥ 0, `sec = floor(secs)` and `0 ≤ nsec < 10^9`; for negative secs both fields are ≤ 0; the getter reads back secs rounded toward zero to within 1 ns |
| LinuxTimerfd.SecondsOfNormalized | unitree_sdk2py/utils/timerfd.py:92-94 | the `seconds` getter (`Timespec.Seconds`) on a normalized `timespec` has `sec` as its integer part, with `nsec` adding less than a second in `sec`'s direction |
| LinuxTimerfd.EncodeOfSeconds | unitree_sdk2py/utils/timerfd.py:92-100 | setting, through the `seconds` setter, the value the getter `Timespec.Seconds` reads from a normalized `timespec` reproduces it |
| LinuxTimerfd.SecondsOfEncode | unitree_sdk2py/utils/timerfd.py:92-100 | the getter `Timespec.Seconds` returns exactly what the setter was given when that is a whole number of nanoseconds |
| LinuxTimerfd.FromSeconds | unitree_sdk2py/utils/timerfd.py:107-112 | `interval` holds the first argument and `value` the second, each truncated to nanoseconds |
| LinuxTimerfd.FromSecondsFieldsIndependent | unitree_sdk2py/utils/timerfd.py:107-112 | each field depends only on its own argument |
| LinuxTimerfd.SetTime | unitree_sdk2py/utils/timerfd.py:121-123 | one native call with flags 0 and no old value; `it_interval` from the first argument, `it_value` from the second |
| PlatformRoles.LinuxArms | unitree_sdk2py/utils/timerfd.py:121-123 | on Linux the first argument is the period and the second the initial expiry, to within 1 ns |
| PlatformRoles.WindowsArmsAsWritten | unitree_sdk2py/utils/timerfd.py:63-71 | on Windows as written the first argument becomes a delay of a/1000 s and the second a period of 10·b s |
| PlatformRoles.WindowsArmsIntended | unitree_sdk2py/utils/timerfd.py:63-68 | the corrected Windows arming delays a seconds and repeats every b seconds, with a non-negative `LONG` period while b·1000 < 2^31 |
| PlatformRoles.ArgumentRolesSwapped | unitree_sdk2py/utils/timerfd.py:121-123 | Linux's initial expiry follows the second argument and its period the first; Windows' due time follows the first argument and its period the second |
| PlatformRoles.OneSecondExample | unitree_sdk2py/utils/timerfd.py:65-66 | 1.0 s becomes a 1 ms due time and a 10 s period as written, 1 s and 1 s when corrected |
| Kernel32.RelativeDueTime | test.py:62 | a non-negative delay becomes a relative due time in 100 ns units rounded toward zero |
| Kernel32.PeriodMillis | test.py:63 | a non-negative period becomes whole milliseconds rounded down |
| ApcTimerTest.DueTimeTicks | test.py:62 | the due time is ≤ 0 and asks for the delay to within 100 ns |
| ApcTimerTest.PeriodArgument | test.py:63 | the period fits a `LONG` and asks for the period to within 1 ms |
| PlatformRoles.TestTimerArms | test.py:61-69 | `timer_init` arms the requested delay and period in the documented units |
| ApcTimerTest.TimerInit | test.py:61-72 | a NULL create raises and never arms; a failed arm closes the new handle exactly once and raises; success returns that handle still open |
| ApcTimerTest.Classify | test.py:79-86 | every code decodes; an unexpected result carries its code |
| ApcTimerTest.ClassifyIsInjective | test.py:79-86 | decoding is total and exclusive: a code is unexpected iff it is none of 0, 192 and `0xFFFFFFFF`, and each code maps back to itself |
| ApcTimerTest.ClassifyIsOnto | test.py:79-86 | every well-formed outcome is the decoding of its code |
| ApcTimerTest.FailureOfCode | test.py:79-86 | only codes 0 and 192 let the wait loop continue; `0xFFFFFFFF` raises a wait failure and every other code raises an unexpected-result error carrying that code |
| ApcTimerTest.RunTest | test.py:74-89 | at most `2·count` waits, stopping at the first error, which is raised; a failing `timer_init` raises its own error (create failed for NULL, set failed after its close) before any wait or cancel; otherwise cancel then close come last; the handle is released exactly once on every path |

## Left out

- Symbol binding is not modelled: `WinDLL` attributes, `argtypes`/`restype` setup and the `CLIBLookup` module. That module is not part of this model. Each native function is an event plus an oracle answer.
- Whether the function `CLIBLookup` binds for `timerfd_settime` raises when the native call fails is not modelled; `clib_lookup.py` is not part of this model, and `LinuxTimerfd.SetTime` states only the call it makes.
- The Linux `timerfd_create` and `timerfd_gettime` bindings are not modelled. They are bare native symbols with no Python logic.
- The Linux `timerfd_gettime` body is not modelled. It is an `os.read` of 8 bytes that ignores its timeout and discards the expiration count.
- Platform selection at import time is not modelled. The two branches are separate modules.
- Kernel timing is not modelled: when a timer fires, periodic spacing, APC delivery during alertable waits, and blocking. These are operating-system and concurrency behaviour.
- The printing completion routine, the `print` calls and the module-level `test(3)` call are not modelled.
- Float semantics are idealised: IEEE-754 rounding of the multiplications is not modelled. Nor is `int()` raising on infinities and NaN.
- Last-error codes are not modelled. `WinError(get_last_error())` is represented by the error kind only. In `timer_init` the code is read after `CloseHandle`, which may overwrite it.
- The trailing argument in the Windows `SetWaitableTimer` call is not modelled. The `timerfd.py` declaration lists seven parameters and passes a seventh `0` that the native function does not take.
- `WinTimerfd.SetTime`: keeps the factors as written, 10000 for both arguments, because that is what the file does. The documented units appear in `SetTimeWindowIntended` and in `test.py`'s `timer_init`.
- `WinTimerfd.SetTimeWindowIntended`: the period promise holds only below 2^31 ms. A longer period wraps to a negative `LONG`, which `SetWaitableTimer` refuses; the kernel's answer stays the `setOk` parameter.
- `LinuxTimerfd.EncodeSeconds`: the nanosecond guarantees are stated only when the integer part fits a 64-bit `c_long`. Outside that range the model masks `sec` exactly as ctypes would.

## Findings

| source | as written | input that shows it | evidently intended | confidence | as-written member | corrected member |
|---|---|---|---|---|---|---|
| unitree_sdk2py/utils/timerfd.py:64-66 | due time `int(interval * -10000)` in 100 ns units and period `int(period * 10000)` in ms | interval = period = 1.0 s gives a 1 ms delay and a 10 s period | seconds converted with 10^7 for the due time and 10^3 for the period | high; not executed | PlatformRoles.WindowsArmsAsWritten | PlatformRoles.WindowsArmsIntended |
| unitree_sdk2py/utils/timerfd.py:66-67 | a non-positive period is passed as `None` to a `ULONG` parameter | period = 0.0: ctypes raises an argument error and the timer is never armed | a one-shot timer, period argument 0 | medium; not executed | WinTimerfd.OneShotRejected | WinTimerfd.SetTimeWindowIntended |
| unitree_sdk2py/utils/timerfd.py:75-77 | an int wait result compared with `DWORD` instances, which compares identity | result 0 returns false; result `0xFFFFFFFF` returns false instead of raising | integer comparison: raise on `WAIT_FAILED`, true on `WAIT_OBJECT_0` | high; not executed | WinTimerfd.GetTimeAsWrittenDiverges | WinTimerfd.GetTime |

=== FILE: apc_timer_test.dfy ===
/** `test.py`: a stand-alone Windows timer driven through alertable waits,
    with the documented `SetWaitableTimer` units, a completion routine, and
    a wait loop whose cleanup always runs. */
module ApcTimerTest {
  import opened Machine
  import opened Results
  import opened Kernel32

  /** The due time `timer_init` passes: `LARGE_INTEGER(-int(due_time * 10**7))`. */
  function DueTimeTicks(dueTime: real): (t: int)
    ensures 0.0 <= dueTime && dueTime * 10_000_000.0 < TWO_63 as real ==>
              t <= 0 && DelaySeconds(t) <= dueTime < DelaySeconds(t) + 0.000_000_1
  {
    RelativeDueTime(dueTime)
  }

  /** The period `timer_init` passes: `int(period * 1000)`, narrowed to the
      declared `LONG` parameter. */
  function PeriodArgument(period: real): (m: int)
    ensures -TWO_31 <= m < TWO_31
    ensures 0.0 <= period && period * 1000.0 < TWO_31 as real ==>
              0 <= m && PeriodSeconds(m) <= period < PeriodSeconds(m) + 0.001
  {
    ToInt32(PeriodMillis(period))
  }

  /** `timer_init(due_time, period)`: create a manual-reset timer, arm it
      with the completion routine and `fResume` set, and close it again if
      arming fails. `created` is what `CreateWaitableTimerW` returns (0 for
      NULL) and `setOk` what `SetWaitableTimer` returns. */
  function TimerInit(dueTime: real, period: real, created: int, setOk: bool): (r: Step<Result<int, Error>>)
    ensures 1 <= |r.calls| && r.calls[0] == CreateWaitableTimer(true)
    ensures created == NULL ==> r.out == Err(CreateFailed) && |r.calls| == 1
    ensures created != NULL ==>
              2 <= |r.calls| &&
              r.calls[1] == SetWaitableTimer(created, DueTimeTicks(dueTime), PeriodArgument(period), true, true)
    ensures r.out.Ok? <==> created != NULL && setOk
    ensures r.out.Ok? ==> r.out.value == created && Releases(r.calls, created) == 0
    ensures r.out.Err? && created != NULL ==>
              r.out.error == SetFailed &&
              Releases(r.calls, created) == 1 && r.calls[|r.calls| - 1] == CloseHandle(created)
  {
    var create := [CreateWaitableTimer(true)];
    if created == NULL then Step(Err(CreateFailed), create)
    else
      var arm := create + [SetWaitableTimer(created, DueTimeTicks(dueTime), PeriodArgument(period), true, true)];
      if setOk then Step(Ok(created), arm)
      else Step(Err(SetFailed), arm + [CloseHandle(created)])
  }

  /** How `test` reads a `WaitForSingleObjectEx` result. */
  datatype WaitOutcome =
    | Signalled                  // 0: "WAIT: Successful"
    | ApcExecuted                // WAIT_IO_COMPLETION: "WAIT: APC Executed"
    | WaitError                  // WAIT_FAILED: raises WinError
    | Unexpected(code: Dword)    // anything else: raises OSError

  /** The decoder of `test`'s `if`/`elif` chain: total over every DWORD. */
  function Classify(code: Dword): (w: WaitOutcome)
    ensures w.Unexpected? ==> w.code == code
  {
    if code == WAIT_OBJECT_0 then Signalled
    else if code == WAIT_IO_COMPLETION then ApcExecuted
    else if code == WAIT_FAILED then WaitError
    else Unexpected(code)
  }

  /** The codes that name a recognised outcome. */
  predicate Recognised(code: Dword)
  {
    code == WAIT_OBJECT_0 || code == WAIT_IO_COMPLETION || code == WAIT_FAILED
  }

  /** A wait outcome as `Classify` can produce it. */
  predicate WellFormed(w: WaitOutcome)
  {
    w.Unexpected? ==> !Recognised(w.code)
  }

  /** The code each outcome stands for. */
  function Code(w: WaitOutcome): Dword
  {
    match w
    case Signalled => WAIT_OBJECT_0
    case ApcExecuted => WAIT_IO_COMPLETION
    case WaitError => WAIT_FAILED
    case Unexpected(c) => c
  }

  /** Every code decodes to exactly one well-formed outcome, the one
      standing for it, and a code is flagged unexpected exactly when it is
      none of the three recognised ones. */
  lemma ClassifyIsInjective(code: Dword)
    ensures WellFormed(Classify(code))
    ensures Code(Classify(code)) == code
    ensures Classify(code).Unexpected? <==> !Recognised(code)
  {
  }

  /** Every well-formed outcome is what its code decodes to. */
  lemma ClassifyIsOnto(w: WaitOutcome)
    requires WellFormed(w)
    ensures Classify(Code(w)) == w
  {
  }

  /** What a wait outcome raises, if anything. */
  function Failure(w: WaitOutcome): (e: Option<Error>)
    ensures e.None? <==> w == Signalled || w == ApcExecuted
    ensures w.Unexpected? ==> e == Some(UnexpectedWaitResult(w.code))
    ensures w == WaitError ==> e == Some(WaitFailed)
  {
    match w
    case Signalled => None
    case ApcExecuted => None
    case WaitError => Some(WaitFailed)
    case Unexpected(c) => Some(UnexpectedWaitResult(c))
  }

  /** Over wait codes: only a success (0) or an executed APC (192) lets
      the loop go on; `WAIT_FAILED` raises a wait failure and any other
      code raises an unexpected-result error carrying that code. */
  lemma FailureOfCode(c: Dword)
    ensures Failure(Classify(c)).None? <==> c == WAIT_OBJECT_0 || c == WAIT_IO_COMPLETION
    ensures c == WAIT_FAILED ==> Failure(Classify(c)) == Some(WaitFailed)
    ensures !Recognised(c) ==> Failure(Classify(c)) == Some(UnexpectedWaitResult(c))
  {
  }

  /** The number of iterations of `for i in range(count * 2)`. */
  function WaitBudget(count: int): (n: nat)
    ensures count <= 0 ==> n == 0
    ensures count > 0 ==> n == count + count
  {
    if count > 0 then 2 * count else 0
  }

  /** `n` alertable infinite waits on `h`. */
  function WaitCalls(h: int, n: nat): (calls: seq<Call>)
    ensures |calls| == n
    ensures forall i :: 0 <= i < n ==> calls[i] == WaitForSingleObject(h, INFINITE, true)
  {
    seq(n, _ => WaitForSingleObject(h, INFINITE, true))
  }

  /** `test(count)`: `timer_init(1, 5)`, then up to `2 * count` alertable
      waits stopping at the first error, and in a `finally` a cancel then a
      close. `created` and `setOk` answer `timer_init`'s native calls and
      `wait(i)` is the result of the i-th wait. `waited` is how many waits
      were made. */
  method RunTest(count: int, created: int, setOk: bool, wait: nat -> Dword)
    returns (outcome: Outcome<Error>, calls: seq<Call>, waited: nat)
    ensures waited <= WaitBudget(count)
    // the timer handle is released exactly once on every path that acquired it
    ensures Releases(calls, created) == if created == NULL then 0 else 1
    // a failing timer_init raises before the try block: no wait, no cancel
    ensures created == NULL || !setOk ==>
              waited == 0 && calls == TimerInit(1.0, 5.0, created, setOk).calls &&
              outcome == Fail(TimerInit(1.0, 5.0, created, setOk).out.error)
    // and the error raised is timer_init's own
    ensures created == NULL ==> outcome == Fail(CreateFailed)
    ensures created != NULL && !setOk ==> outcome == Fail(SetFailed)
    // otherwise the waits come after arming, and cancel then close come last
    ensures created != NULL && setOk ==>
              calls == TimerInit(1.0, 5.0, created, setOk).calls + WaitCalls(created, waited)
                       + [CancelWaitableTimer(created), CloseHandle(created)]
    // every wait but the last one made was a success
    ensures forall j :: 0 <= j < waited - 1 ==> Failure(Classify(wait(j))).None?
    // the loop stops early only on an error, and raises that error
    ensures created != NULL && setOk && outcome.Fail? ==>
              waited > 0 && Failure(Classify(wait(waited - 1))) == Some(outcome.error)
    ensures created != NULL && setOk && outcome == Pass ==>
              waited == WaitBudget(count) && (waited > 0 ==> Failure(Classify(wait(waited - 1))).None?)
  {
    var init := TimerInit(1.0, 5.0, created, setOk);
    calls := init.calls;
    waited := 0;
    if init.out.Err? {
      outcome := Fail(init.out.error);
      return;
    }
    var h := init.out.value;
    var budget := WaitBudget(count);
    outcome := Pass;
    while waited < budget && outcome == Pass
      invariant waited <= budget
      invariant calls == init.calls + WaitCalls(h, waited)
      invariant forall j :: 0 <= j < waited - 1 ==> Failure(Classify(wait(j))).None?
      invariant outcome == Pass ==> waited == 0 || Failure(Classify(wait(waited - 1))).None?
      invariant outcome.Fail? ==> waited > 0 && Failure(Classify(wait(waited - 1))) == Some(outcome.error)
      decreases budget - waited
    {
      var code := wait(waited);
      calls := calls + [WaitForSingleObject(h, INFINITE, true)];
      waited := waited + 1;
      assert calls == init.calls + WaitCalls(h, waited);
      match Failure(Classify(code))
      case Some(e) => outcome := Fail(e);
      case None =>
    }
    // the finally clause
    calls := calls + [CancelWaitableTimer(h), CloseHandle(h)];
    assert CloseHandle(h) !in WaitCalls(h, waited);
    assert multiset(calls) == multiset(init.calls) + multiset(WaitCalls(h, waited))
                              + multiset([CancelWaitableTimer(h), CloseHandle(h)]);
  }
}

=== FILE: kernel32.dfy ===
/** The slice of the Win32 kernel32 interface both Windows timer
    implementations drive, as seen from Python through ctypes.

    Native calls are not executed: each one becomes a `Call` event appended
    to a trace, and whatever the kernel answers (a handle value, a success
    flag, a wait-result code) is a parameter of the operation that makes
    the call. */
module Kernel32 {
  import opened Machine

  /** `DWORD(-1)`: wait forever. */
  const INFINITE: Dword := 0xFFFF_FFFF
  /** The waited-on object is signalled. */
  const WAIT_OBJECT_0: Dword := 0
  /** An alertable wait returned because a completion routine (APC) ran. */
  const WAIT_IO_COMPLETION: Dword := 192
  /** `DWORD(-1)`: the wait itself failed. */
  const WAIT_FAILED: Dword := 0xFFFF_FFFF

  /** ctypes hands a NULL `HANDLE` back as `None`; 0 stands for it here. */
  const NULL: int := 0
  /** `HANDLE(-1).value` in a 64-bit process. */
  const INVALID_HANDLE_VALUE: int := TWO_64 - 1

  /** Due-time units of `SetWaitableTimer`: a negative due time is relative
      and counts 100-nanosecond intervals. */
  const TICKS_PER_SECOND: int := 10_000_000
  /** Units of `SetWaitableTimer`'s `lPeriod`: milliseconds. */
  const MILLIS_PER_SECOND: int := 1000

  /** One native call, with the arguments it received after ctypes
      converted them. `WaitForSingleObject` is `WaitForSingleObjectEx` with
      `alertable` false. */
  datatype Call =
    | CreateWaitableTimer(manualReset: bool)
    | SetWaitableTimer(timer: int, dueTime: int, period: int, completionRoutine: bool, resume: bool)
    | WaitForSingleObject(object: int, millis: Dword, alertable: bool)
    | CancelWaitableTimer(timer: int)
    | CloseHandle(object: int)

  /** What the Python code raises. */
  datatype Error =
    | UnsupportedClock             // a clock id other than the supported one
    | ArgumentError                // ctypes refused to convert an argument
    | CreateFailed                 // CreateWaitableTimer returned NULL
    | SetFailed                    // SetWaitableTimer returned FALSE
    | WaitFailed                   // the wait returned WAIT_FAILED
    | UnexpectedWaitResult(code: Dword)

  /** The Python result of an operation, with the native calls it made. */
  datatype Step<+T> = Step(out: T, calls: seq<Call>)

  /** How many times a trace releases the native handle `h`. */
  function Releases(calls: seq<Call>, h: int): nat
  {
    multiset(calls)[CloseHandle(h)]
  }

  /** The relative due time for a delay of `seconds`, in the units the
      documentation of `SetWaitableTimer` prescribes, stored in a
      `LARGE_INTEGER`. */
  function RelativeDueTime(seconds: real): (t: int)
    ensures -TWO_63 <= t < TWO_63
    ensures 0.0 <= seconds && seconds * 10_000_000.0 < TWO_63 as real ==>
              t <= 0 && -(t as real) <= seconds * 10_000_000.0 < -(t as real) + 1.0
    ensures seconds < 0.0 && seconds * 10_000_000.0 > -(TWO_63 as real) ==> t >= 0
  {
    ToInt64(-Trunc(seconds * TICKS_PER_SECOND as real))
  }

  /** A period of `seconds` in whole milliseconds, before ctypes narrows it. */
  function PeriodMillis(seconds: real): (m: int)
    ensures 0.0 <= seconds ==> 0 <= m && m as real <= seconds * 1000.0 < m as real + 1.0
  {
    Trunc(seconds * MILLIS_PER_SECOND as real)
  }

  /** Seconds of delay that a relative due time asks for. */
  function DelaySeconds(dueTime: int): real
  {
    -(dueTime as real) / TICKS_PER_SECOND as real
  }

  /** Seconds between firings that a period argument asks for. */
  function PeriodSeconds(period: int): real
  {
    period as real / MILLIS_PER_SECOND as real
  }
}

=== FILE: machine.dfy ===
/** Machine-level arithmetic the timer code relies on.

    Python floats are modelled as exact reals. Two conversions matter:
    - `int(x)` on a float rounds toward zero (`Trunc`);
    - storing a Python int into a fixed-width ctypes integer (a structure
      field, a constructor such as `LARGE_INTEGER(n)`, or an argument whose
      declared type is an integer) keeps only the low bits, with no overflow
      check (`ToInt32`, `ToUint32`, `ToInt64`).
 */
module Machine {

  const TWO_31: int := 0x8000_0000
  const TWO_32: int := 0x1_0000_0000
  const TWO_63: int := 0x8000_0000_0000_0000
  const TWO_64: int := 0x1_0000_0000_0000_0000

  /** A Win32 DWORD as ctypes hands it back: an unsigned 32-bit value. */
  type Dword = x: int | 0 <= x < 0x1_0000_0000

  /** Python's `int(x)` on a float: the integer part, rounded toward zero. */
  function Trunc(x: real): (n: int)
    ensures 0.0 <= x ==> 0 <= n && n as real <= x < n as real + 1.0
    ensures x < 0.0 ==> n <= 0 && n as real - 1.0 < x <= n as real
  {
    if x >= 0.0 then x.Floor else -((-x).Floor)
  }

  /** An integer-valued real truncates to itself. */
  lemma TruncOfInt(n: int)
    ensures Trunc(n as real) == n
  {
  }

  /** A signed 32-bit C integer (`c_long`/`LONG` on Windows, `c_int`). */
  function ToInt32(x: int): (r: int)
    ensures -TWO_31 <= r < TWO_31
    ensures (x - r) % TWO_32 == 0
    ensures -TWO_31 <= x < TWO_31 ==> r == x
  {
    var m := x % TWO_32;
    if m < TWO_31 then m else m - TWO_32
  }

  /** An unsigned 32-bit C integer (`c_uint`, `DWORD`). */
  function ToUint32(x: int): (r: int)
    ensures 0 <= r < TWO_32
    ensures (x - r) % TWO_32 == 0
    ensures 0 <= x < TWO_32 ==> r == x
  {
    x % TWO_32
  }

  /** A signed 64-bit C integer (`LARGE_INTEGER`, `c_long` on 64-bit Linux). */
  function ToInt64(x: int): (r: int)
    ensures -TWO_63 <= r < TWO_63
    ensures (x - r) % TWO_64 == 0
    ensures -TWO_63 <= x < TWO_63 ==> r == x
  {
    var m := x % TWO_64;
    if m < TWO_63 then m else m - TWO_64
  }
}

=== FILE: platform_roles.dfy ===
/** The two `timerfd_settime(handle, a, b)` wrappers of
    `unitree_sdk2py/utils/timerfd.py` and the timer of `test.py` side by
    side, read through the documented meaning of the native arguments they
    produce and of the codes they decode. */
module PlatformRoles {
  import opened Machine
  import opened Kernel32
  import opened Results
  import WinTimerfd
  import LinuxTimerfd
  import ApcTimerTest

  /** On Linux `a` becomes the period and `b` the initial expiry, each
      truncated to nanoseconds. */
  lemma LinuxArms(fd: int, a: real, b: real)
    requires 0.0 <= a < TWO_63 as real && 0.0 <= b < TWO_63 as real
    ensures var spec := LinuxTimerfd.SetTime(fd, a, b)[0].newValue;
            && spec.interval.Seconds() <= a < spec.interval.Seconds() + 0.000_000_001
            && spec.value.Seconds() <= b < spec.value.Seconds() + 0.000_000_001
  {
  }

  /** On Windows, as written, `a` becomes the initial delay and `b` the
      period; with the source's factor the delay is a/1000 seconds and the
      period 10*b seconds (to within the truncation). */
  lemma WindowsArmsAsWritten(h: WinTimerfd.TimerHandle, a: real, b: real, setOk: bool)
    requires 0.0 <= a && a * 10000.0 < TWO_63 as real
    requires 0.0 < b && b * 10000.0 < TWO_31 as real
    ensures var c := WinTimerfd.SetTime(h, a, b, setOk).calls[0];
            && c.SetWaitableTimer?
            && DelaySeconds(c.dueTime) <= a / 1000.0 < DelaySeconds(c.dueTime) + 0.000_000_1
            && PeriodSeconds(c.period) <= 10.0 * b < PeriodSeconds(c.period) + 0.001
  {
  }

  /** The corrected Windows arming: `a` seconds of delay and `b` seconds of
      period, in the documented units, with the period a non-negative `LONG`
      as long as it stays below 2^31 ms. */
  lemma WindowsArmsIntended(h: WinTimerfd.TimerHandle, a: real, b: real, setOk: bool)
    requires 0.0 <= a && a * 10_000_000.0 < TWO_63 as real
    requires 0.0 < b && b * 1000.0 < TWO_31 as real
    ensures var c := WinTimerfd.SetTimeWindowIntended(h, 0, a, b, setOk).calls[0];
            && 0 <= c.period < TWO_31
            && DelaySeconds(c.dueTime) <= a < DelaySeconds(c.dueTime) + 0.000_000_1
            && PeriodSeconds(c.period) <= b < PeriodSeconds(c.period) + 0.001
  {
  }

  /** `timer_init` in `test.py` arms the documented delay and period. */
  lemma TestTimerArms(a: real, b: real, created: int, setOk: bool)
    requires created != NULL
    requires 0.0 <= a && a * 10_000_000.0 < TWO_63 as real
    requires 0.0 <= b && b * 1000.0 < TWO_31 as real
    ensures var c := ApcTimerTest.TimerInit(a, b, created, setOk).calls[1];
            && c.SetWaitableTimer?
            && DelaySeconds(c.dueTime) <= a < DelaySeconds(c.dueTime) + 0.000_000_1
            && PeriodSeconds(c.period) <= b < PeriodSeconds(c.period) + 0.001
  {
  }

  /** The same positional call `timerfd_settime(h, a, b)` gives its
      arguments opposite roles: the initial expiry follows `b` on Linux and
      `a` on Windows, the period `a` on Linux and `b` on Windows. */
  lemma ArgumentRolesSwapped(h: WinTimerfd.TimerHandle, fd: int, a: real, a2: real, b: real, b2: real, setOk: bool)
    requires b > 0.0 && b2 > 0.0
    ensures LinuxTimerfd.SetTime(fd, a, b)[0].newValue.value
            == LinuxTimerfd.SetTime(fd, a2, b)[0].newValue.value
    ensures LinuxTimerfd.SetTime(fd, a, b)[0].newValue.interval
            == LinuxTimerfd.SetTime(fd, a, b2)[0].newValue.interval
    ensures WinTimerfd.SetTime(h, a, b, setOk).calls[0].dueTime
            == WinTimerfd.SetTime(h, a, b2, setOk).calls[0].dueTime
    ensures WinTimerfd.SetTime(h, a, b, setOk).calls[0].period
            == WinTimerfd.SetTime(h, a2, b, setOk).calls[0].period
  {
  }

  /** One second of delay and of period: 1 ms and 10 s as written, 1 s and
      1 s in the documented units. */
  lemma OneSecondExample(h: WinTimerfd.TimerHandle, setOk: bool)
    ensures WinTimerfd.SetTime(h, 1.0, 1.0, setOk).calls[0].dueTime == -10000
    ensures WinTimerfd.SetTime(h, 1.0, 1.0, setOk).calls[0].period == 10000
    ensures WinTimerfd.SetTimeWindowIntended(h, 0, 1.0, 1.0, setOk).calls[0].dueTime == -10_000_000
    ensures WinTimerfd.SetTimeWindowIntended(h, 0, 1.0, 1.0, setOk).calls[0].period == 1000
  {
  }

  /** The Windows `timerfd_gettime`, read with integer comparisons, agrees
      with `test.py`'s decoder: it raises exactly on the code decoded as a
      wait error, and reports the timer signalled exactly on the code
      decoded as success. An executed APC and unknown codes both read as
      "not signalled". */
  lemma GetTimeAgreesWithClassify(h: WinTimerfd.TimerHandle, timeout: Dword, code: Dword)
    ensures WinTimerfd.GetTime(h, code, timeout).out.Err? <==> ApcTimerTest.Classify(code) == ApcTimerTest.WaitError
    ensures WinTimerfd.GetTime(h, code, timeout).out == Ok(true) <==> ApcTimerTest.Classify(code) == ApcTimerTest.Signalled
  {
  }
}

=== FILE: results.dfy ===
/** Value-or-error shapes standing for Python's return-or-raise. */
module Results {

  datatype Option<+T> = None | Some(value: T)

  /** A call that returns `value` or raises `error`. */
  datatype Result<+T, +E> = Ok(value: T) | Err(error: E)

  /** A call that returns nothing useful, or raises `error`. */
  datatype Outcome<+E> = Pass | Fail(error: E)
}

=== FILE: timerfd_linux.dfy ===
/** The Linux branch of `unitree_sdk2py/utils/timerfd.py`: the `timespec`
    and `itimerspec` encoders and the `timerfd_settime` wrapper.

    `timespec` fields are `c_long`, 64 bits wide on the LP64 Linux targets. */
module LinuxTimerfd {
  import opened Machine

  const NANOS_PER_SECOND: int := 1_000_000_000

  /** `struct timespec`: whole seconds and nanoseconds. */
  datatype Timespec = Timespec(sec: int, nsec: int) {

    /** The `seconds` getter: `sec + nsec / 1000000000`. */
    function Seconds(): real
    {
      sec as real + nsec as real / NANOS_PER_SECOND as real
    }
  }

  /** Seconds whose integer part fits in a `c_long`. */
  predicate InLongRange(secs: real)
  {
    -(TWO_63 as real) - 1.0 < secs < TWO_63 as real
  }

  /** `t` is `secs` rounded toward zero to a whole nanosecond: the fields
      fit, share the sign of `secs`, `nsec` is a proper fraction of a
      second, and `t.Seconds()` lies within one nanosecond of `secs`,
      between zero and `secs`. */
  predicate TruncatesTo(secs: real, t: Timespec)
  {
    && -TWO_63 <= t.sec < TWO_63
    && -NANOS_PER_SECOND < t.nsec < NANOS_PER_SECOND
    && (0.0 <= secs ==> 0 <= t.sec && 0 <= t.nsec && t.Seconds() <= secs < t.Seconds() + 0.000_000_001)
    && (secs < 0.0 ==> t.sec <= 0 && t.nsec <= 0 && t.Seconds() - 0.000_000_001 < secs <= t.Seconds())
  }

  /** `math.modf(x)`: the fractional and the integral part, both carrying
      the sign of `x`. */
  function Modf(x: real): (r: (real, real))
    ensures r.0 + r.1 == x
    ensures r.1 == Trunc(x) as real
    ensures 0.0 <= x ==> 0.0 <= r.0 < 1.0
    ensures x < 0.0 ==> -1.0 < r.0 <= 0.0
  {
    var whole := Trunc(x) as real;
    (x - whole, whole)
  }

  /** The `seconds` setter: `x, y = math.modf(secs)`, `sec = int(y)`,
      `nsec = int(x * 1000000000)`, each stored in a `c_long`. It overwrites
      both fields, so the result does not depend on the previous ones. */
  function EncodeSeconds(secs: real): (t: Timespec)
    ensures -TWO_63 <= t.sec < TWO_63
    ensures InLongRange(secs) ==> TruncatesTo(secs, t)
    ensures 0.0 <= secs < TWO_63 as real ==> t.sec == secs.Floor
  {
    var (frac, whole) := Modf(secs);
    var nanos := Trunc(frac * NANOS_PER_SECOND as real);
    Timespec(ToInt64(Trunc(whole)), ToInt64(nanos))
  }

  /** A `timespec` the setter can produce: fields in range with a common sign. */
  predicate Normalized(t: Timespec)
  {
    && -TWO_63 <= t.sec < TWO_63
    && -NANOS_PER_SECOND < t.nsec < NANOS_PER_SECOND
    && (t.sec > 0 ==> t.nsec >= 0)
    && (t.sec < 0 ==> t.nsec <= 0)
  }

  /** The getter on a normalized `timespec`: its integer part (rounded
      toward zero) is `sec`, and `nsec` contributes less than one second
      in the direction of `sec`'s sign. */
  lemma SecondsOfNormalized(t: Timespec)
    requires Normalized(t)
    ensures Trunc(t.Seconds()) == t.sec
    ensures t.sec > 0 || (t.sec == 0 && t.nsec >= 0) ==> t.sec as real <= t.Seconds() < t.sec as real + 1.0
    ensures t.sec < 0 || (t.sec == 0 && t.nsec < 0) ==> t.sec as real - 1.0 < t.Seconds() <= t.sec as real
  {
  }

  /** Setting the seconds read from a normalized `timespec` gives it back. */
  lemma EncodeOfSeconds(t: Timespec)
    requires Normalized(t)
    ensures EncodeSeconds(t.Seconds()) == t
  {
    SecondsOfNormalized(t);
    var (frac, whole) := Modf(t.Seconds());
    assert frac * NANOS_PER_SECOND as real == t.nsec as real;
    TruncOfInt(t.nsec);
    TruncOfInt(t.sec);
  }

  /** Reading back a nanosecond-exact value gives exactly that value. */
  lemma SecondsOfEncode(secs: real)
    requires InLongRange(secs)
    requires ((secs * NANOS_PER_SECOND as real).Floor) as real == secs * NANOS_PER_SECOND as real
    ensures EncodeSeconds(secs).Seconds() == secs
  {
    var (frac, whole) := Modf(secs);
    var n := (secs * NANOS_PER_SECOND as real).Floor;
    var w := Trunc(secs);
    assert frac * NANOS_PER_SECOND as real == (n - w * NANOS_PER_SECOND) as real;
    TruncOfInt(n - w * NANOS_PER_SECOND);
    TruncOfInt(w);
  }

  /** `struct itimerspec`: `it_interval` is the period, `it_value` the
      initial expiry (timerfd_settime(2)). */
  datatype Itimerspec = Itimerspec(interval: Timespec, value: Timespec)

  /** `itimerspec.from_seconds(interval, value)`: each field carries its own
      argument, truncated to nanoseconds. */
  function FromSeconds(interval: real, value: real): (s: Itimerspec)
    ensures InLongRange(interval) ==> TruncatesTo(interval, s.interval)
    ensures InLongRange(value) ==> TruncatesTo(value, s.value)
  {
    Itimerspec(EncodeSeconds(interval), EncodeSeconds(value))
  }

  /** `from_seconds` does not let one argument leak into the other field. */
  lemma FromSecondsFieldsIndependent(i1: real, i2: real, v1: real, v2: real)
    ensures FromSeconds(i1, v1).interval == FromSeconds(i1, v2).interval
    ensures FromSeconds(i1, v1).value == FromSeconds(i2, v1).value
  {
  }

  /** One native `timerfd_settime(fd, flags, new_value, old_value)` call;
      `oldValueNull` records that no old value is requested. */
  datatype LibcCall = TimerfdSettime(fd: int, flags: int, newValue: Itimerspec, oldValueNull: bool)

  /** `timerfd_settime(handle, interval, value)`: the first argument fills
      `it_interval` (the period) and the second `it_value` (the initial
      expiry). The wrapper does not inspect the native return code. */
  function SetTime(fd: int, interval: real, value: real): (calls: seq<LibcCall>)
    ensures |calls| == 1
    ensures calls[0].fd == ToInt32(fd) && calls[0].flags == 0 && calls[0].oldValueNull
    ensures InLongRange(interval) ==> TruncatesTo(interval, calls[0].newValue.interval)
    ensures InLongRange(value) ==> TruncatesTo(value, calls[0].newValue.value)
  {
    [TimerfdSettime(ToInt32(fd), 0, FromSeconds(interval, value), true)]
  }
}

=== FILE: timerfd_windows.dfy ===
/** The Windows branch of `unitree_sdk2py/utils/timerfd.py`: a timerfd-like
    facade over a manual-reset waitable timer.

    Each operation takes the kernel's answers as parameters and returns the
    Python result together with the native calls it made. */
module WinTimerfd {
  import opened Machine
  import opened Results
  import opened Kernel32

  /** The only clock id `timerfd_create` accepts. */
  const SUPPORTED_CLOCK_ID: int := 1

  /** The factor the source applies to both the due time and the period
      (the documented factors are 10^7 and 10^3, see `Kernel32`). */
  const SOURCE_FACTOR: int := 10000

  /** `TimerHandle`: an owned native value, or the `INVALID_HANDLE_VALUE`
      sentinel object.

      `close` tests `self.handle != INVALID_HANDLE_VALUE`, where the sentinel
      is a ctypes `HANDLE` instance. ctypes instances define no equality, so
      the test is object identity: every value the native create hands back,
      NULL (`None`) included, reads as live, and only the sentinel object
      itself reads as released. */
  datatype TimerHandle = Live(value: int) | Invalid {

    /** The value passed to a native call taking this handle. */
    function Native(): int
    {
      if Live? then value else INVALID_HANDLE_VALUE
    }
  }

  /** `TimerHandle.close`. */
  function Close(h: TimerHandle): (r: Step<TimerHandle>)
    ensures r.out == Invalid
    ensures h.Live? ==> Releases(r.calls, h.value) == 1 && |r.calls| == 1
    ensures h.Invalid? ==> r.calls == []
  {
    match h
    case Live(v) => Step(Invalid, [CloseHandle(v)])
    case Invalid => Step(Invalid, [])
  }

  /** The two ways a wrapper is released: an explicit `close()`, or the
      finaliser `__del__`, which calls `close()`. */
  datatype Release = ExplicitClose | Finalizer

  function ApplyRelease(h: TimerHandle, op: Release): Step<TimerHandle>
  {
    match op
    case ExplicitClose => Close(h)
    case Finalizer => Close(h)
  }

  /** Applies a sequence of releases in order, concatenating their calls. */
  function ReleaseAll(h: TimerHandle, ops: seq<Release>): Step<TimerHandle>
    decreases |ops|
  {
    if ops == [] then Step(h, [])
    else
      var first := ApplyRelease(h, ops[0]);
      var rest := ReleaseAll(first.out, ops[1..]);
      Step(rest.out, first.calls + rest.calls)
  }

  /** A released wrapper never calls the kernel again. */
  lemma {:induction false} ReleasedStaysSilent(ops: seq<Release>)
    ensures ReleaseAll(Invalid, ops) == Step(Invalid, [])
    decreases |ops|
  {
    if ops != [] {
      ReleasedStaysSilent(ops[1..]);
    }
  }

  /** Any non-empty mix of `close()` and `__del__` on a wrapper releases a
      live native value exactly once and leaves the sentinel; on a released
      wrapper it makes no native call. */
  lemma {:induction false} ReleasedExactlyOnce(h: TimerHandle, ops: seq<Release>)
    requires ops != []
    ensures ReleaseAll(h, ops).out == Invalid
    ensures ReleaseAll(h, ops).calls == if h.Live? then [CloseHandle(h.value)] else []
  {
    ReleasedStaysSilent(ops[1..]);
  }

  /** The wrapper `timerfd_create` builds before asking the kernel: `None`
      when the clock id is rejected first. */
  function CreatedWrapper(clockId: int, created: int): (w: Option<TimerHandle>)
    ensures w.Some? <==> clockId == SUPPORTED_CLOCK_ID
    ensures w.Some? ==> w.value == Live(created)
  {
    if clockId != SUPPORTED_CLOCK_ID then None else Some(Live(created))
  }

  /** `timerfd_create(clockid, ignoreflag)`; `created` is what
      `CreateWaitableTimerW` returns (0 for NULL).

      The source raises `ctypes.WinError("not support clockid")` for a wrong
      clock id; since `WinError` formats a non-integer code it raises a
      `TypeError` rather than an `OSError`, still before any native call. */
  function Create(clockId: int, ignoreFlag: int, created: int): (r: Step<Result<TimerHandle, Error>>)
    ensures clockId != SUPPORTED_CLOCK_ID ==> r == Step(Err(UnsupportedClock), [])
    ensures clockId == SUPPORTED_CLOCK_ID ==> r.calls == [CreateWaitableTimer(true)]
    ensures r.out.Ok? <==> clockId == SUPPORTED_CLOCK_ID && created != NULL
    ensures r.out.Ok? ==> r.out.value == Live(created)
    ensures clockId == SUPPORTED_CLOCK_ID && created == NULL ==> r.out == Err(CreateFailed)
  {
    match CreatedWrapper(clockId, created)
    case None => Step(Err(UnsupportedClock), [])
    case Some(w) =>
      var calls := [CreateWaitableTimer(true)];
      if w.value == NULL then Step(Err(CreateFailed), calls) else Step(Ok(w), calls)
  }

  /** A failed native create leaves behind a wrapper holding `None`; by the
      identity test it reads as live, so its finaliser passes NULL to
      `CloseHandle`. */
  lemma FailedCreateFinalizesNull(clockId: int, ignoreFlag: int)
    requires Create(clockId, ignoreFlag, NULL).out == Err(CreateFailed)
    ensures CreatedWrapper(clockId, NULL).Some?
    ensures ApplyRelease(CreatedWrapper(clockId, NULL).value, Finalizer).calls == [CloseHandle(NULL)]
  {
  }

  /** A successfully created timer, once closed, has been released exactly
      once, and its native value is the one the kernel returned. */
  lemma CreateThenCloseReleasesOnce(created: int, ops: seq<Release>)
    requires created != NULL
    requires ops != []
    ensures var c := Create(SUPPORTED_CLOCK_ID, 0, created);
            c.out.Ok? &&
            Releases(c.calls + ReleaseAll(c.out.value, ops).calls, created) == 1
  {
    ReleasedExactlyOnce(Live(created), ops);
  }

  /** The due time as written: `LARGE_INTEGER(int(interval * -10000))`.
      For a non-negative interval it is relative (not positive), and it
      counts `interval` in units of 1/10000 s, not the documented 10^-7 s. */
  function DueTimeTicks(interval: real): (t: int)
    ensures -TWO_63 <= t < TWO_63
    ensures 0.0 <= interval && interval * 10000.0 < TWO_63 as real ==>
              t <= 0 && -(t as real) <= interval * 10000.0 < -(t as real) + 1.0
    ensures interval < 0.0 && interval * 10000.0 > -(TWO_63 as real) ==> t >= 0
  {
    ToInt64(Trunc(interval * -(SOURCE_FACTOR as real)))
  }

  /** The period as written: `int(period * 10000)` when positive, `None`
      otherwise. */
  function PeriodArgument(period: real): (p: Option<int>)
    ensures p.Some? <==> period > 0.0
    ensures p.Some? ==> 0 <= p.value && p.value as real <= period * 10000.0 < p.value as real + 1.0
  {
    if period > 0.0 then Some(Trunc(period * SOURCE_FACTOR as real)) else None
  }

  /** ctypes converting the period for the `ULONG` (`c_uint`) parameter: an
      int is masked to 32 bits; `None` is not an integer and is refused with
      `ctypes.ArgumentError` before the native function is entered. */
  function MarshalUlong(a: Option<int>): (r: Result<int, Error>)
    ensures r.Err? <==> a.None?
    ensures r.Err? ==> r.error == ArgumentError
    ensures r.Ok? ==> 0 <= r.value < TWO_32 && (a.value - r.value) % TWO_32 == 0
  {
    match a
    case None => Err(ArgumentError)
    case Some(v) => Ok(ToUint32(v))
  }

  /** `timerfd_settime_window(handle, ignoreflag, interval, period)` as
      written; `setOk` is what `SetWaitableTimer` returns. */
  function SetTimeWindow(h: TimerHandle, ignoreFlag: int, interval: real, period: real, setOk: bool)
    : (r: Step<Outcome<Error>>)
    ensures period <= 0.0 ==> r == Step(Fail(ArgumentError), [])
    ensures period > 0.0 ==>
              r.calls == [SetWaitableTimer(h.Native(), DueTimeTicks(interval),
                                           ToUint32(PeriodArgument(period).value), false, false)]
    ensures period > 0.0 ==> (r.out == Pass <==> setOk)
    ensures r.out.Fail? ==> r.out.error in {ArgumentError, SetFailed}
  {
    var due := DueTimeTicks(interval);
    match MarshalUlong(PeriodArgument(period))
    case Err(e) => Step(Fail(e), [])
    case Ok(p) =>
      var calls := [SetWaitableTimer(h.Native(), due, p, false, false)];
      if setOk then Step(Pass, calls) else Step(Fail(SetFailed), calls)
  }

  /** One-shot arming as written never reaches the kernel. */
  lemma OneShotRejected(h: TimerHandle, interval: real, period: real, setOk: bool)
    requires period <= 0.0
    ensures SetTimeWindow(h, 0, interval, period, setOk).out == Fail(ArgumentError)
    ensures SetTimeWindow(h, 0, interval, period, setOk).calls == []
  {
  }

  /** `timerfd_settime_window` with the documented units and a one-shot
      period passed as 0: it raises exactly when the kernel refuses. The
      period is narrowed to the signed 32-bit `LONG` that `lPeriod` is, so a
      period of 2^31 ms or more wraps to a negative value, which the kernel
      refuses. */
  function SetTimeWindowIntended(h: TimerHandle, ignoreFlag: int, interval: real, period: real, setOk: bool)
    : (r: Step<Outcome<Error>>)
    ensures |r.calls| == 1 && r.calls[0].SetWaitableTimer? && r.calls[0].timer == h.Native()
    ensures r.out == Pass <==> setOk
    ensures r.out.Fail? ==> r.out.error == SetFailed
    ensures -TWO_31 <= r.calls[0].period < TWO_31
    ensures period <= 0.0 ==> r.calls[0].period == 0
    ensures 0.0 < period && period * 1000.0 < TWO_31 as real ==>
              0 <= r.calls[0].period &&
              PeriodSeconds(r.calls[0].period) <= period < PeriodSeconds(r.calls[0].period) + 0.001
    ensures 0.0 <= interval && interval * 10_000_000.0 < TWO_63 as real ==>
              DelaySeconds(r.calls[0].dueTime) <= interval < DelaySeconds(r.calls[0].dueTime) + 0.000_000_1
  {
    var p := if period > 0.0 then ToInt32(PeriodMillis(period)) else 0;
    var calls := [SetWaitableTimer(h.Native(), RelativeDueTime(interval), p, false, false)];
    if setOk then Step(Pass, calls) else Step(Fail(SetFailed), calls)
  }

  /** `timerfd_settime(handle, interval, value)`: the first argument is the
      due time and the second the period. */
  function SetTime(h: TimerHandle, interval: real, value: real, setOk: bool): (r: Step<Outcome<Error>>)
    ensures value > 0.0 ==>
              |r.calls| == 1 && r.calls[0].SetWaitableTimer? &&
              r.calls[0].dueTime == DueTimeTicks(interval) &&
              r.calls[0].period == ToUint32(PeriodArgument(value).value)
    ensures value > 0.0 ==> (r.out == Pass <==> setOk)
    ensures value <= 0.0 ==> r.out == Fail(ArgumentError)
  {
    SetTimeWindow(h, 0, interval, value, setOk)
  }

  /** An operand of Python's `==` in `timerfd_gettime`: a Python int, or a
      ctypes `DWORD` instance made at module level. `id` tells distinct
      instances apart; `value` is the DWORD they hold. */
  datatype PyOperand = PyInt(n: int) | DwordObject(id: nat, value: Dword)

  /** Python's `==`: two ints compare by value. A ctypes instance defines
      no equality of its own, so any comparison involving one falls back to
      object identity. */
  predicate PyEq(a: PyOperand, b: PyOperand)
  {
    if a.PyInt? && b.PyInt? then a.n == b.n else a == b
  }

  /** The module-level `WAIT_FAILED = DWORD(-1)` and `WAIT_OBJECT_0 = DWORD(0)`. */
  const WAIT_FAILED_OBJECT: PyOperand := DwordObject(0, ToUint32(-1))
  const WAIT_OBJECT_0_OBJECT: PyOperand := DwordObject(1, WAIT_OBJECT_0)

  /** The body of `timerfd_gettime` after the wait: raise if the result
      equals `failed`, otherwise report whether it equals `signalled`. */
  function DecodeWait(result: PyOperand, failed: PyOperand, signalled: PyOperand): Result<bool, Error>
  {
    if PyEq(result, failed) then Err(WaitFailed) else Ok(PyEq(result, signalled))
  }

  /** `timerfd_gettime(handle, timeout_ms=INFINITE)` with the constants
      compared as integers; `result` is what `WaitForSingleObject`
      returns. As written they are ctypes `DWORD` instances, which compare
      by identity: see `GetTimeAsWritten`. */
  function GetTime(h: TimerHandle, result: Dword, timeout: Dword := INFINITE): (r: Step<Result<bool, Error>>)
    ensures r.calls == [WaitForSingleObject(h.Native(), timeout, false)]
    ensures r.out.Err? <==> result == WAIT_FAILED
    ensures r.out.Err? ==> r.out.error == WaitFailed
    ensures r.out.Ok? ==> (r.out.value <==> result == WAIT_OBJECT_0)
  {
    var calls := [WaitForSingleObject(h.Native(), timeout, false)];
    Step(DecodeWait(PyInt(result), PyInt(WAIT_FAILED), PyInt(WAIT_OBJECT_0)), calls)
  }

  /** Called without a timeout, `timerfd_gettime` waits without limit. */
  lemma GetTimeWaitsForeverByDefault(h: TimerHandle, result: Dword)
    ensures GetTime(h, result).calls == [WaitForSingleObject(h.Native(), INFINITE, false)]
    ensures GetTimeAsWritten(h, result).calls == [WaitForSingleObject(h.Native(), INFINITE, false)]
  {
  }

  /** `timerfd_gettime` as written: the int result never is either `DWORD`
      instance, so it never raises and never reports the timer signalled,
      even when the wait failed or the timer is signalled. */
  function GetTimeAsWritten(h: TimerHandle, result: Dword, timeout: Dword := INFINITE): (r: Step<Result<bool, Error>>)
    ensures r.calls == [WaitForSingleObject(h.Native(), timeout, false)]
    ensures r.out.Ok? && !r.out.value
  {
    var calls := [WaitForSingleObject(h.Native(), timeout, false)];
    Step(DecodeWait(PyInt(result), WAIT_FAILED_OBJECT, WAIT_OBJECT_0_OBJECT), calls)
  }

  /** Where the code as written and the intended decoding part ways: a
      signalled timer and a failed wait, although the instances hold
      exactly those codes. */
  lemma GetTimeAsWrittenDiverges(h: TimerHandle, timeout: Dword)
    ensures WAIT_FAILED_OBJECT.value == WAIT_FAILED && WAIT_OBJECT_0_OBJECT.value == WAIT_OBJECT_0
    ensures GetTime(h, WAIT_OBJECT_0, timeout).out == Ok(true)
    ensures GetTimeAsWritten(h, WAIT_OBJECT_0, timeout).out == Ok(false)
    ensures GetTime(h, WAIT_FAILED, timeout).out == Err(WaitFailed)
    ensures GetTimeAsWritten(h, WAIT_FAILED, timeout).out == Ok(false)
  {
  }
}
